=== FILE: README.md ===
# PlayerokBot promotion engine, modelled in Dafny

PlayerokBot walks through a seller's listings on the Playerok marketplace, one
page at a time, and buys the premium priority status for every listing that has
been approved long enough ago. `main.py` holds the engine that this project models:

- the backoff rate limiter (`RateLimiter`);
- the name normalisation `_normalize_name` and the per-listing eligibility checks;
- the two bounded retry loops, `promote_product_with_retry` and the page fetch of
  `check_and_update_products`;
- the cycle `check_and_update_products` itself, with its counters and the
  per-name promotion counts `promoted_by_name`.

The model is functional. Every call of the two retry loops, promotion and page
fetch, is an `Attempt`: the reply (a value or an error message), the clock reading
`on_error` would stamp and the jitter `random.randint(0, 10)` would draw. The
priority lookup, which is not retried, is a `Lookup`: an error or the list of
offers. A page pairs each listing with the answers the marketplace gives while
that listing is processed, and a cycle is run against one fetch script per page. Waits are returned as values; nothing sleeps.

Modules, in dependency order:

| file | module | contents |
|---|---|---|
| wrappers.dfy | `Wrappers` | `Option`, `Min`, `Max` |
| text.dfy | `Text` | `p in s`, `str.isspace`, `strip`, `lower`, decimal formatting |
| names.dfy | `Names` | `_normalize_name` and the include/exclude name sets |
| rate_limiter.dfy | `RateLimiter` | the limiter state, the throttled wait, the page delay's zero check, the countdown |
| remote.dfy | `Remote` | replies, attempts, listings, pages and the retry budgets 3 and 5 |
| retry.dfy | `Retrying` | the retry loop shared by both call sites, and its characterisation `Settled` |
| executors.dfy | `Executors` | `promote_product_with_retry`, its messages, and the page fetch |
| eligibility.dfy | `Eligibility` | the ordered per-listing decision |
| cycle.dfy | `Cycle` | item processing, the page loop, counters and pagination |

Some points where the model follows the code closely:

- A throttling error is recognised by its message text, as the code does.
  - Promotion calls look for "429" or "TOO_MANY_REQUESTS".
  - The page fetch also accepts "Too many attempts".
- `on_error` runs before `calculate_wait_time(429)`, so the first throttled wait
  already uses one error: 10 seconds plus jitter, not 5.
- The jitter is `random.randint(0, 10)`, which includes 10.
- A failed promotion counts as a skip when its message contains "Пропуск товара"
  and as an error otherwise. That covers the exhausted-budget message, and also a
  non-throttling error whose own text happens to contain the phrase
  (`Executors.FailureMessageMarked`).
- The top-level `except` of the cycle (main.py:741-742) only prints. It does not
  add to `total_errors`.
- The comment at main.py:376 speaks of "10 minutes", but the cap the code applies
  is 120 seconds, and the model uses 120.

## Model

| member | source | states |
|---|---|---|
| RateLimiter.OnError | main.py:380-383 | the consecutive-error count grows by exactly one and the error time becomes the current clock |
| RateLimiter.OnSuccess | main.py:385-388 | the count is reset to zero and the error time cleared |
| RateLimiter.ThrottledWait | main.py:368-376 | the throttled wait lies between 5 and 120 seconds; below five errors it is `5·2^errors + jitter`, from five errors on it is the cap of 120 |
| RateLimiter.ThrottledWaitMonotone | main.py:370-376 | for a fixed jitter the wait never shrinks as the error streak grows |
| RateLimiter.PageDelay | main.py:270-274 | both bounds zero gives no delay; any other pair gives exactly the draw, which lies between the two bounds |
| RateLimiter.OnlyZeroPairDisablesDelay | main.py:272-274 | the delay is zero exactly when both bounds are zero or the draw is zero; positive bounds, equal ones included, always give a positive delay |
| RateLimiter.Countdown | main.py:516-520 | the countdown `range(w, 0, -5)` has `ceil(w/5)` steps, step k showing `w - 5k` seconds, all positive |
| RateLimiter.CountdownSleepsWait | main.py:516-520 | sleeping `min(5, remaining)` at every countdown step sleeps exactly `w` seconds |
| Text.IsSpaceTable | main.py:398 | the whitespace `strip()` removes is exactly the 29 characters of Python's `str.isspace()` table |
| Text.LowerChar | main.py:398 | lower-casing a character never turns whitespace into non-whitespace or the reverse |
| Text.LowerShape | main.py:398 | `lower()` keeps the length and lower-cases each character on its own |
| Text.TrimStartShape | main.py:398 | the leading strip keeps a suffix, removes only whitespace and stops at a non-space |
| Text.TrimEndShape | main.py:398 | the trailing strip keeps a prefix, removes only whitespace and stops at a non-space |
| Text.StripShape | main.py:398 | `strip()` returns a block of the input with only whitespace around it and no whitespace at its ends |
| Text.StripIdempotent | main.py:398 | stripping twice is stripping once |
| Text.StripIgnoresPadding | main.py:398 | whitespace added around a string does not change its stripped form |
| Text.StripLowerCommute | main.py:398 | stripping and lower-casing commute |
| Text.LowerIdempotent | main.py:398 | lower-casing twice is lower-casing once |
| Names.NormalizeShape | main.py:396-398 | `None` normalises to ""; a normalised name has no surrounding whitespace and is all lower-case |
| Names.NormalizeIdempotent | main.py:396-398 | normalising a normalised name changes nothing |
| Names.NormalizeIgnoresCase | main.py:396-398 | names equal after lower-casing normalise to the same string |
| Names.NormalizeIgnoresPadding | main.py:396-398 | names differing only in surrounding whitespace normalise to the same string |
| Names.NameSetMembers | main.py:327-347 | the include/exclude set never holds "", holds only normalised names, holds the normal form of every non-blank configured name, and holds nothing else: each member is the normal form of some non-blank configured name |
| Retrying.ThrottlingByChannel | main.py:565-569 | a page-fetch error is throttling exactly when a promotion error would be, or when it contains "Too many attempts"; that phrase alone marks only a page-fetch error |
| Retrying.RetryFrom | main.py:488-528 | the loop from attempt i: every call before the last was throttled and was followed by the wait for the error count it raised; the last call decides success, rejection or exhaustion, and the limiter ends fresh, or carries the streak of throttled calls |
| Retrying.SettledAfterThrottle | main.py:504-523 | a throttled, waited-on attempt in front of a settled run gives a settled run one attempt earlier |
| Retrying.Retry | main.py:555-610 | no budget means no call and an untouched limiter; otherwise the run is settled from the first attempt and makes at most the budget of calls |
| Retrying.RejectionIsImmediate | main.py:530-532 | a non-throttling first error ends the loop after one call, with the limiter unchanged and no wait |
| Retrying.ThrottledThroughout | main.py:504-528 | when every allowed attempt is throttled, the loop makes exactly the budget of calls, waits after all but the last, and adds the budget to the error count |
| Retrying.ThrottledFirstWaits | main.py:504-523 | with a budget above one, a throttled first call is followed by a wait, the wait for one error more than the limiter held at the start |
| Retrying.SuccessClearsStreak | main.py:498 | after a successful call the error count is zero, whatever came before |
| Executors.ExhaustedMessageMarked | main.py:525-528 | the exhausted-budget message contains "Пропуск товара" |
| Executors.FailureMessageMarked | main.py:531-532 | the non-throttling failure message contains the marker exactly when the remote error text does |
| Executors.UnknownFailureUnmarked | main.py:534 | "Неизвестная ошибка" does not contain the marker |
| Executors.PromoteContract | main.py:473-534 | at most `max_retries` calls; success exactly when the last call made succeeded, then with a zero error count and the status name in the message; no budget gives the unknown-error message; the failure message is marked exactly when all attempts were throttled or the error text carries the marker |
| Executors.PromoteRejection | main.py:530-532 | a non-throttling first error fails the promotion after one call, with the limiter unchanged, no wait and the error text in the message |
| Executors.FetchPage | main.py:555-590 | between one and five calls; a fetched page is the reply of the last call and leaves the error count at zero; the fetch is exhausted exactly when all five calls were made and the fifth was throttled |
| Eligibility.DecideInOrder | main.py:628-677 | each decision holds exactly when all earlier checks passed and its own failed: name filter, date parse, age threshold, duplicate limit |
| Eligibility.ConfiguredNameFilter | main.py:628-640 | for a policy whose sets are built from the configured lists as `include_names` and `exclude_names` build them (main.py:327-347): with some non-blank include name, a listing passes exactly when a configured include name normalises to its name; otherwise exactly when no configured exclude name does; a listing without a name passes exactly when no include name is set |
| Eligibility.IncludeOverridesExclude | main.py:629-640 | with a non-empty include set, the exclude set has no effect and a listing is filtered out exactly when its name is not included |
| Cycle.FindPremium | main.py:688-695 | no result exactly when no offer is premium; otherwise the first premium offer |
| Cycle.ItemEffect | main.py:622-729 | each listing is checked once; a filtered, undated or duplicate listing adds exactly one skip; a listing not yet due changes only the checked counter and makes no call; an eligible listing settles exactly one outcome, in the counter `Classified` names, and hands the shared limiter and the backoff waits on as `Threaded` says; the promoted counter grows exactly when the promotion succeeds, and only then does the name's count grow |
| Cycle.EligibleEffect | main.py:684-729 | exactly one outcome, as `Classified` says: a lookup error is an error; no premium offer is a skip; a successful promotion is a promotion and bumps the name's count; an exhausted budget is a skip; a non-throttling failure is a skip when its error text contains "Пропуск товара" and an error otherwise; when a promotion is attempted the cycle's limiter becomes the one its retry loop ends with and its waits are appended, otherwise limiter and waits are untouched |
| Cycle.EligibleClassified | main.py:684-729 | the counter an eligible listing goes to is fixed by the remote answers alone, as `Classified` lists them: lookup error to errors, no premium offer to skipped, success to promoted, exhausted budget to skipped, other failure to skipped or errors by the marker in its error text |
| Cycle.NameCountFollowsPromotion | main.py:707-710 | a name's promotion count changes only for the listing's own name, and only by the promotion it got |
| Cycle.ItemKeepsLimit | main.py:667-677 | processing a listing keeps every per-name count within a non-negative duplicate limit |
| Cycle.ItemsEffect | main.py:622-729 | a page checks each of its listings once, settles at most one outcome each, keeps the duplicate limit, loses no count and only appends backoff waits |
| Cycle.ExhaustedPromotionCarriesStreak | main.py:698-705 | the limiter is shared across listings: when some offer is premium, an all-throttled promotion is a skip that leaves the streak raised by 3 after 2 waits, so from a fresh limiter the next throttled call waits `5·2^4` seconds plus jitter |
| Cycle.ExhaustedStreakReachesNextListing | main.py:622-705 | the next listing's promotion runs on the limiter the exhausted one left: when a listing exhausts its budget from a fresh limiter and the next eligible listing's first promotion call is throttled, that listing's first wait is `5·2^4` seconds plus jitter |
| Cycle.ProcessItemsAppend | main.py:622-729 | listings are processed in page order, each on the counters, limiter, calls and waits the previous listing left: one more listing at the end is one more item step on the result |
| Cycle.FetchFailureEndsCycle | main.py:591-610 | a page that cannot be fetched ends the cycle with exactly one more error, earlier counts kept and no page added; the limiter is the one the fetch loop ended with and its waits are appended |
| Cycle.FetchedPageStartsFromFetch | main.py:555-562 | the listings of a fetched page are processed with the limiter the fetch left, with a zero error streak, after the fetch's calls and waits |
| Cycle.PageStepAdvances | main.py:551-739 | one turn of the page loop advances the cycle; only a failed fetch adds an error that is not tied to a listing |
| Cycle.FetchedPageAdvances | main.py:622-739 | after a fetched page the cycle has advanced by exactly that page's listings |
| Cycle.FailedFetchAdvances | main.py:591-610 | after a failed fetch the cycle stops; its counters are the earlier ones with exactly one error added, and no page is added to those fetched |
| Cycle.PageAdvances | main.py:622-729 | processing a fetched page advances the cycle by that page, whatever cursor follows |
| Cycle.AdvancedTrans | main.py:552-739 | advancing over two stretches of the loop advances over both |
| Cycle.RunEffect | main.py:551-739 | the rest of a cycle advances it: the checked counter grows by the listings of the new pages, outcomes settle at most once per listing, plus one when it ends at a failed fetch, in which case the error counter has grown; the waits recorded so far stay a prefix of the cycle's waits |
| Cycle.StopIsFinal | main.py:591-610 | a page turn that ends the cycle ends it at the last page or at a failed fetch, never because the fetch scripts ran out |
| Cycle.RunFromAppend | main.py:552-739 | pages are taken in order, each from the state the page before left, limiter and waits included: one more fetch script is one more page turn on the state the run so far ended in, and changes nothing once the cycle has ended at the last page or a failed fetch |
| Cycle.TotalEntriesAppend | main.py:622-623 | fetching one more page adds its listings to the total |
| Cycle.PageStepPaginates | main.py:555-739 | one turn keeps the cursor bookkeeping: the requested cursor is the current one and the next one is the page's `end_cursor` |
| Cycle.PagePaginates | main.py:731-739 | after a fetched page, the cycle goes on at `end_cursor` when there is a next page and stops otherwise |
| Cycle.FailurePaginates | main.py:591-610 | a failed fetch records its requested cursor but no page |
| Cycle.RunPaginates | main.py:539-739 | the first fetch asks for no cursor, each later one for the `end_cursor` of the page before, and only the last page of a cycle that reached it lacks a next page |
| Cycle.CycleSummary | main.py:537-744 | over a whole cycle, `total_checked` counts the listings of the fetched pages, outcomes number at most one per listing plus one failed fetch, the duplicate limit holds, and pagination follows the cursors |

## Left out

- Loading, defaulting and validating the YAML configuration is left out. That is file I/O and process exit. The model takes an already built `Policy`: the normalised include and exclude sets, the threshold in seconds and the duplicate limit. `Eligibility.FromConfig` says when the two sets are the ones built from the configured lists; the cycle lemmas hold for any `Policy`, and `Eligibility.ConfiguredNameFilter` states the name filter for one built that way.
- Non-string entries of the configured name lists, and the single-string form, are left out. `Names.NameSet` takes a list of strings.
- Every `print`, the banner and the progress bar are left out. They are presentation only.
- `time.sleep` is left out. The retry loops return the backoff waits they would sleep, the cycle appends them in order to `Work.waits`, and `RateLimiter.Countdown` gives the sleep steps of one wait.
- The cycle does not record its sleeps between promotions or between pages. Those are random float delays.
- The `item_list is None` branch (main.py:612-619) is not represented: a successful fetch reply always carries a page in the model. In the source it is reached only if `get_items` returns `None`, after `on_success`, and it adds one error and ends the cycle.
- `random.uniform` is left out as floating-point randomness. `RateLimiter.PageDelay` keeps the zero check over integers, and takes the draw as a parameter.
- `calculate_wait_time()` without a status code is left out. It only draws the delay between promotions.
- `main()` and its endless schedule of cycles are left out.
- The `playerokapi` client calls are left out; this foreign network client is not part of this model. Each call is an `Attempt` with a reply, and the priority lookup is a `Lookup`.
- The choice between `publish_item` and `increase_item_priority_status` is left out. It follows the `is_published` flag, which the cycle passes as the cycle-wide setting `config.item_status == "APPROVED"` (main.py:702) and never per listing, and both calls are one attempt with the same retry and failure handling.
- `datetime.fromisoformat` and time zones are left out. An approval date is an `Option<int>` of seconds, with `None` for a date that does not parse, and each listing carries the clock reading of `_get_now()`.
- Listing prices are left out, and listing ids are carried but never inspected. Both are only passed on to the client.
- Exceptions the source does not expect, caught by the top-level `except` at main.py:741, are left out. An example is a `product.name` that is not a string, where `.strip()` raises. A listing name here is always a string or `None`.
- `defaultdict` inserting a zero entry when `promoted_by_name` is read is left out. `Eligibility.Count` reads a missing name as zero, which is what the code observes.
- Cycle.RunFrom is bounded by the fetch scripts it is given. When they run out, the model ends with `ScriptEnded`, which is not an ending of the source, whose `while True` keeps fetching while pages announce a next page.
- Text.LowerChar lower-cases only the upper-case letters of ASCII, Latin-1 and the basic Cyrillic block; other scripts and the multi-character lower-case mappings of Python's `str.lower()` are not modelled.
- Text.IntToDecimal is used only for the retry budget in the exhausted message. Its contract states the digits and the sign, not the full decimal value.

=== FILE: cycle.dfy ===
/**
 * One run of `check_and_update_products`: fetch pages one after another, decide
 * and possibly promote every listing of a fetched page in page order, keep the
 * counters and the per-name promotion counts, and stop at the last page or at
 * the first page that cannot be fetched.
 */
module Cycle {
  import opened Wrappers
  import opened Text
  import opened Names
  import opened RateLimiter
  import opened Remote
  import opened Retrying
  import opened Executors
  import opened Eligibility

  /** The counters of a cycle and `promoted_by_name`. */
  datatype Stats = Stats(checked: nat, promoted: nat, skipped: nat, errors: nat, promotedByName: map<string, nat>)

  const NoStats := Stats(0, 0, 0, 0, map[])

  /** Promoted, skipped and errored outcomes together. */
  function Outcomes(s: Stats): nat {
    s.promoted + s.skipped + s.errors
  }

  /**
   * What item processing threads through: the counters, the rate limiter shared
   * by every remote call of the cycle, the number of remote calls made and the
   * backoff waits slept so far, in order.
   */
  datatype Work = Work(stats: Stats, limiter: Limiter, calls: nat, waits: seq<nat>)

  /** `a` is a prefix of `b`. */
  predicate Prefix(a: seq<nat>, b: seq<nat>) {
    |a| <= |b| && b[..|a|] == a
  }

  lemma PrefixTrans(a: seq<nat>, b: seq<nat>, c: seq<nat>)
    requires Prefix(a, b) && Prefix(b, c)
    ensures Prefix(a, c)
  {
    assert c[..|a|] == c[..|b|][..|a|];
  }

  lemma PrefixAppend(a: seq<nat>, b: seq<nat>)
    ensures Prefix(a, a + b)
  {
    assert (a + b)[..|a|] == a;
  }

  /** `offers[k]` is premium and no earlier offer is. */
  predicate FirstPremiumAt(offers: seq<PriorityOffer>, k: int) {
    && 0 <= k < |offers| && offers[k].tier == Premium
    && forall j :: 0 <= j < k ==> offers[j].tier != Premium
  }

  /** The first premium offer, as `next((s for s in statuses if s.type == PREMIUM), None)`. */
  function FindPremium(offers: seq<PriorityOffer>): (r: Option<PriorityOffer>)
    ensures r.None? <==> forall k :: 0 <= k < |offers| ==> offers[k].tier != Premium
    ensures r.Some? ==> exists k :: FirstPremiumAt(offers, k) && offers[k] == r.value
  {
    if offers == [] then None
    else if offers[0].tier == Premium then
      assert FirstPremiumAt(offers, 0);
      Some(offers[0])
    else
      var r := FindPremium(offers[1..]);
      assert r.Some? ==> exists k :: FirstPremiumAt(offers, k) && offers[k] == r.value by {
        if r.Some? {
          var k :| FirstPremiumAt(offers[1..], k) && offers[1..][k] == r.value;
          assert FirstPremiumAt(offers, k + 1) by {
            forall j | 0 <= j < k + 1 ensures offers[j].tier != Premium {
              if j > 0 { assert offers[j] == offers[1..][j - 1]; }
            }
          }
        }
      }
      assert r.None? ==> forall k :: 0 <= k < |offers| ==> offers[k].tier != Premium by {
        if r.None? {
          forall k | 0 <= k < |offers| ensures offers[k].tier != Premium {
            if k > 0 { assert offers[k] == offers[1..][k - 1]; }
          }
        }
      }
      r
  }

  /**
   * The priority lookup and the promotion of an eligible listing named `n`;
   * `s` already counts the listing as checked, and `l`, `calls` and `waits` are
   * the cycle's limiter, call count and waits so far. A failed lookup is an
   * error, a missing premium offer a skip; a failed promotion is a skip when its
   * message carries the skip marker and an error otherwise. The promotion goes on
   * with the cycle's limiter and hands it back, with its waits appended.
   */
  function PromoteEligible(s: Stats, l: Limiter, calls: nat, waits: seq<nat>, n: string, world: ItemWorld): Work {
    match world.lookup
    case LookupFailed(_) => Work(s.(errors := s.errors + 1), l, calls + 1, waits)
    case Offers(offers) =>
      match FindPremium(offers)
      case None => Work(s.(skipped := s.skipped + 1), l, calls + 1, waits)
      case Some(offer) =>
        var pr := Promote(l, offer, world.promotion, PromoMaxRetries);
        var c := calls + 1 + pr.calls;
        var ws := waits + pr.waits;
        if pr.success then
          Work(s.(promoted := s.promoted + 1,
                  promotedByName := s.promotedByName[n := Count(s.promotedByName, n) + 1]), pr.limiter, c, ws)
        else if Contains(pr.message, SkipMarker) then
          Work(s.(skipped := s.skipped + 1), pr.limiter, c, ws)
        else
          Work(s.(errors := s.errors + 1), pr.limiter, c, ws)
  }

  /** The body of `for product in item_list.items`: normalise the name, then decide and act. */
  function ProcessItem(p: Policy, w: Work, e: Entry): Work {
    ProcessNamed(p, w, Normalize(e.listing.name), e)
  }

  /** The loop body once `norm_name` is `n`. */
  function ProcessNamed(p: Policy, w: Work, n: string, e: Entry): Work {
    var s := w.stats.(checked := w.stats.checked + 1);
    match Decide(p, w.stats.promotedByName, n, e.listing.approvalDate, e.world.clock)
    case NotYetDue => w.(stats := s)
    case Eligible => PromoteEligible(s, w.limiter, w.calls, w.waits, n, e.world)
    case _ => w.(stats := s.(skipped := s.skipped + 1))
  }

  /** The listings of one page, in page order. */
  function ProcessItems(p: Policy, w: Work, es: seq<Entry>): Work
    decreases |es|
  {
    if es == [] then w else ProcessItems(p, ProcessItem(p, w, es[0]), es[1..])
  }

  /**
   * The listings run in page order, each from the whole `Work` the listings before
   * it left: counters, per-name counts, the shared limiter, calls and waits.
   */
  lemma {:induction false} ProcessItemsAppend(p: Policy, w: Work, es: seq<Entry>, e: Entry)
    ensures ProcessItems(p, w, es + [e]) == ProcessItem(p, ProcessItems(p, w, es), e)
    decreases |es|
  {
    if es == [] {
      assert ([] + [e])[1..] == [];
    } else {
      assert (es + [e])[0] == es[0];
      assert (es + [e])[1..] == es[1..] + [e];
      ProcessItemsAppend(p, ProcessItem(p, w, es[0]), es[1..], e);
    }
  }

  /** Whether the promotion of this listing would succeed, were it attempted. */
  predicate PromotionSucceeds(l: Limiter, world: ItemWorld) {
    && world.lookup.Offers?
    && FindPremium(world.lookup.offers).Some?
    && Promote(l, FindPremium(world.lookup.offers).value, world.promotion, PromoMaxRetries).success
  }

  /**
   * Every listing is checked once; a filtered, undated or duplicate listing adds
   * exactly one skip and nothing else; a listing that is not yet due changes only
   * the checked counter and makes no remote call; an eligible listing adds
   * exactly one promoted, skipped or errored outcome; the promoted counter grows
   * exactly when a promotion succeeds.
   */
  lemma ItemEffect(p: Policy, w: Work, n: string, e: Entry)
    ensures var r := ProcessNamed(p, w, n, e);
      var d := Decide(p, w.stats.promotedByName, n, e.listing.approvalDate, e.world.clock);
      && r.stats.checked == w.stats.checked + 1
      && (d.NotYetDue? ==> r == w.(stats := w.stats.(checked := w.stats.checked + 1)))
      && (CountedSkip(d) ==>
            r == w.(stats := w.stats.(checked := w.stats.checked + 1, skipped := w.stats.skipped + 1)))
      && (d.Eligible? ==> Outcomes(r.stats) == Outcomes(w.stats) + 1 && r.calls > w.calls)
      && (d.Eligible? ==>
            Classified(w.stats.(checked := w.stats.checked + 1), w.limiter, n, e.world, r.stats))
      && (d.Eligible? ==> Threaded(w.limiter, w.waits, e.world, r))
      && (r.stats.promoted == w.stats.promoted + 1 <==> d.Eligible? && PromotionSucceeds(w.limiter, e.world))
      && (r.stats.promoted != w.stats.promoted + 1 ==>
            r.stats.promoted == w.stats.promoted && r.stats.promotedByName == w.stats.promotedByName)
      && (r.stats.promoted == w.stats.promoted + 1 ==>
            r.stats.promotedByName == w.stats.promotedByName[n := Count(w.stats.promotedByName, n) + 1])
  {
    var s := w.stats.(checked := w.stats.checked + 1);
    var d := Decide(p, w.stats.promotedByName, n, e.listing.approvalDate, e.world.clock);
    var r := ProcessNamed(p, w, n, e);
    if d.Eligible? {
      assert r == PromoteEligible(s, w.limiter, w.calls, w.waits, n, e.world);
      EligibleEffect(s, w.limiter, w.calls, w.waits, n, e.world);
    } else if d.NotYetDue? {
      assert r == w.(stats := s);
    } else {
      assert r == w.(stats := s.(skipped := s.skipped + 1));
    }
  }

  /**
   * Which counter an eligible listing named `n` goes to, from what the remote
   * calls answered: a failed lookup is an error, no premium offer a skip, a
   * successful promotion a promotion of `n`, an exhausted budget a skip, and a
   * non-throttling failure a skip when its error text carries the skip marker
   * and an error otherwise.
   */
  ghost predicate Classified(s: Stats, l: Limiter, n: string, world: ItemWorld, r: Stats) {
    match world.lookup
    case LookupFailed(_) => r == s.(errors := s.errors + 1)
    case Offers(offers) =>
      match FindPremium(offers)
      case None => r == s.(skipped := s.skipped + 1)
      case Some(_) =>
        match Retry(PromotionCall, l, world.promotion, PromoMaxRetries).outcome
        case Retrieved(_) =>
          r == s.(promoted := s.promoted + 1, promotedByName := s.promotedByName[n := Count(s.promotedByName, n) + 1])
        case Exhausted => r == s.(skipped := s.skipped + 1)
        case Rejected(m) =>
          if Contains(m, SkipMarker) then r == s.(skipped := s.skipped + 1) else r == s.(errors := s.errors + 1)
        case NotAttempted => false
  }

  /**
   * How an eligible listing leaves the shared limiter and the waits: when a
   * promotion is attempted, the limiter is the one its retry loop ends with and
   * that loop's backoff waits are appended; otherwise both are untouched.
   */
  ghost predicate Threaded(l: Limiter, waits: seq<nat>, world: ItemWorld, r: Work) {
    if world.lookup.Offers? && FindPremium(world.lookup.offers).Some? then
      var run := Retry(PromotionCall, l, world.promotion, PromoMaxRetries);
      r.limiter == run.limiter && r.waits == waits + run.waits
    else
      r.limiter == l && r.waits == waits
  }

  /**
   * An eligible listing settles exactly one outcome, in the counter `Classified`
   * names; it is a promotion exactly when the promotion succeeds; the limiter and
   * the waits are threaded through the promotion as `Threaded` says.
   */
  lemma EligibleEffect(s: Stats, l: Limiter, calls: nat, waits: seq<nat>, n: string, world: ItemWorld)
    ensures var r := PromoteEligible(s, l, calls, waits, n, world);
      && Classified(s, l, n, world, r.stats)
      && Threaded(l, waits, world, r)
      && r.stats.checked == s.checked
      && Outcomes(r.stats) == Outcomes(s) + 1 && r.calls > calls
      && (r.stats.promoted == s.promoted + 1 <==> PromotionSucceeds(l, world))
      && (r.stats.promoted != s.promoted + 1 ==> r.stats.promoted == s.promoted && r.stats.promotedByName == s.promotedByName)
      && (r.stats.promoted == s.promoted + 1 ==>
            r.stats.promotedByName == s.promotedByName[n := Count(s.promotedByName, n) + 1])
  {
    EligibleClassified(s, l, calls, waits, n, world);
  }

  /** The counter an eligible listing goes to is the one `Classified` names. */
  lemma EligibleClassified(s: Stats, l: Limiter, calls: nat, waits: seq<nat>, n: string, world: ItemWorld)
    ensures Classified(s, l, n, world, PromoteEligible(s, l, calls, waits, n, world).stats)
  {
    if world.lookup.Offers? && FindPremium(world.lookup.offers).Some? {
      var offer := FindPremium(world.lookup.offers).value;
      var run := Retry(PromotionCall, l, world.promotion, PromoMaxRetries);
      var pr := Promote(l, offer, world.promotion, PromoMaxRetries);
      match run.outcome
      case Retrieved(_) =>
        assert pr.success;
      case Exhausted =>
        ExhaustedMessageMarked(PromoMaxRetries);
        assert pr == Promotion(false, ExhaustedMessage(PromoMaxRetries), run.calls, run.limiter, run.waits);
      case Rejected(m) =>
        FailureMessageMarked(m);
        assert pr == Promotion(false, FailurePrefix + m, run.calls, run.limiter, run.waits);
    }
  }

  /**
   * The per-name count grows only through a successful promotion, by one and only
   * for the listing's own normalised name.
   */
  lemma NameCountFollowsPromotion(p: Policy, w: Work, n: string, e: Entry, x: string)
    ensures var r := ProcessNamed(p, w, n, e);
      Count(r.stats.promotedByName, x) ==
        Count(w.stats.promotedByName, x) + (if x == n then r.stats.promoted - w.stats.promoted else 0)
  {
    ItemEffect(p, w, n, e);
  }

  /** `promoted_by_name[n] <= duplicates_limit` for every name, when a limit is set. */
  ghost predicate WithinLimit(p: Policy, byName: map<string, nat>) {
    p.duplicatesLimit >= 0 ==> forall x :: x in byName ==> byName[x] <= p.duplicatesLimit
  }

  lemma ItemKeepsLimit(p: Policy, w: Work, n: string, e: Entry)
    requires WithinLimit(p, w.stats.promotedByName)
    ensures WithinLimit(p, ProcessNamed(p, w, n, e).stats.promotedByName)
  {
    var r := ProcessNamed(p, w, n, e);
    ItemEffect(p, w, n, e);
    if r.stats.promoted == w.stats.promoted + 1 {
      DecideInOrder(p, w.stats.promotedByName, n, e.listing.approvalDate, e.world.clock);
    }
  }

  /** Counters only grow, per-name counts included. */
  ghost predicate Grown(a: Stats, b: Stats) {
    && a.checked <= b.checked && a.promoted <= b.promoted
    && a.skipped <= b.skipped && a.errors <= b.errors
    && forall x :: Count(a.promotedByName, x) <= Count(b.promotedByName, x)
  }

  /**
   * Processing a page checks each of its listings once, settles at most one
   * outcome per listing, keeps the duplicate limit and loses no earlier count.
   */
  lemma {:induction false} ItemsEffect(p: Policy, w: Work, es: seq<Entry>)
    ensures var r := ProcessItems(p, w, es);
      && r.stats.checked == w.stats.checked + |es|
      && Outcomes(r.stats) <= Outcomes(w.stats) + |es|
      && Grown(w.stats, r.stats)
      && Prefix(w.waits, r.waits)
      && (WithinLimit(p, w.stats.promotedByName) ==> WithinLimit(p, r.stats.promotedByName))
    decreases |es|
  {
    if es != [] {
      var n := Normalize(es[0].listing.name);
      var w1 := ProcessNamed(p, w, n, es[0]);
      assert ProcessItem(p, w, es[0]) == w1;
      ItemEffect(p, w, n, es[0]);
      forall x ensures Count(w.stats.promotedByName, x) <= Count(w1.stats.promotedByName, x) {
        NameCountFollowsPromotion(p, w, n, es[0], x);
      }
      if WithinLimit(p, w.stats.promotedByName) {
        ItemKeepsLimit(p, w, n, es[0]);
      }
      var d := Decide(p, w.stats.promotedByName, n, es[0].listing.approvalDate, es[0].world.clock);
      if d.Eligible? {
        if es[0].world.lookup.Offers? && FindPremium(es[0].world.lookup.offers).Some? {
          PrefixAppend(w.waits, Retry(PromotionCall, w.limiter, es[0].world.promotion, PromoMaxRetries).waits);
        }
      }
      assert Prefix(w.waits, w1.waits);
      ItemsEffect(p, w1, es[1..]);
      PrefixTrans(w.waits, w1.waits, ProcessItems(p, w1, es[1..]).waits);
    } else {
      assert w.waits[..|w.waits|] == w.waits;
    }
  }

  /** How a cycle ended. */
  datatype Ending =
    | LastPage      // a page without a next page was processed
    | FetchFailed   // a page could not be fetched
    | ScriptEnded   // the environment supplied no further page (a bound of the model, not of the source)

  /**
   * The cycle between pages: the work so far, the cursor of the next fetch, the
   * cursors requested so far and the pages fetched so far.
   */
  datatype CycleState = CycleState(work: Work, cursor: Option<string>, requested: seq<Option<string>>, fetched: seq<Page>)

  datatype Report = Report(state: CycleState, ending: Ending)

  const Start := CycleState(Work(NoStats, Fresh, 0, []), None, [], [])

  /** After one page: go on with the next fetch, or the cycle is over. */
  datatype Step = Continue(next: CycleState) | Stop(report: Report)

  /**
   * One turn of the page loop `while True`: fetch the page at the current cursor
   * (five attempts), process its listings, then either stop or move the cursor to
   * the page's `end_cursor`. A failed fetch adds one error and stops. The
   * `item_list is None` case of the source is not represented: a successful
   * reply always carries a page.
   */
  function PageStep(p: Policy, s: CycleState, script: FetchScript): Step {
    AfterFetch(p, s, FetchPage(s.work.limiter, script))
  }

  /** The rest of a page turn, once the fetch has come back with `run`. */
  function AfterFetch(p: Policy, s: CycleState, run: Run<Page>): Step {
    var w := s.work.(limiter := run.limiter, calls := s.work.calls + run.calls, waits := s.work.waits + run.waits);
    var requested := s.requested + [s.cursor];
    if run.outcome.Retrieved? then
      var page := run.outcome.value;
      var s' := CycleState(ProcessItems(p, w, page.entries), s.cursor, requested, s.fetched + [page]);
      if !page.hasNextPage then Stop(Report(s', LastPage))
      else Continue(s'.(cursor := page.endCursor))
    else
      Stop(Report(CycleState(w.(stats := w.stats.(errors := w.stats.errors + 1)), s.cursor, requested, s.fetched),
                  FetchFailed))
  }

  /** The page loop, one fetch script per page it fetches. */
  function RunFrom(p: Policy, s: CycleState, scripts: seq<FetchScript>): Report
    decreases |scripts|
  {
    if scripts == [] then Report(s, ScriptEnded)
    else
      match PageStep(p, s, scripts[0])
      case Stop(r) => r
      case Continue(s') => RunFrom(p, s', scripts[1..])
  }

  /** `check_and_update_products`: the page loop from a fresh limiter, no cursor and zero counters. */
  function RunCycle(p: Policy, scripts: seq<FetchScript>): Report {
    RunFrom(p, Start, scripts)
  }

  /** A page turn never reports that the scripts ran out. */
  lemma StopIsFinal(p: Policy, s: CycleState, script: FetchScript)
    ensures PageStep(p, s, script).Stop? ==> PageStep(p, s, script).report.ending != ScriptEnded
  {
  }

  /**
   * One more turn after a cycle run on the scripts so far: a cycle that has
   * ended stays ended; otherwise the turn starts from the state it stood in.
   */
  function Resume(p: Policy, r: Report, sc: FetchScript): Report {
    if r.ending != ScriptEnded then r
    else match PageStep(p, r.state, sc)
      case Stop(r') => r'
      case Continue(t) => Report(t, ScriptEnded)
  }

  /**
   * The pages run one after another, each turn starting from the whole state the
   * turn before left, the shared limiter included: one more fetch script is one
   * more turn from exactly where the cycle stood, and none once it has ended.
   */
  lemma {:induction false} RunFromAppend(p: Policy, s: CycleState, scripts: seq<FetchScript>, sc: FetchScript)
    ensures RunFrom(p, s, scripts + [sc]) == Resume(p, RunFrom(p, s, scripts), sc)
    decreases |scripts|
  {
    if scripts == [] {
      assert ([] + [sc])[1..] == [];
    } else {
      StopIsFinal(p, s, scripts[0]);
      assert (scripts + [sc])[0] == scripts[0];
      assert (scripts + [sc])[1..] == scripts[1..] + [sc];
      match PageStep(p, s, scripts[0])
      case Stop(r) =>
      case Continue(s') => RunFromAppend(p, s', scripts[1..], sc);
    }
  }


  /** The listings of the given pages. */
  function TotalEntries(pages: seq<Page>): nat {
    if pages == [] then 0 else TotalEntries(pages[..|pages| - 1]) + |pages[|pages| - 1].entries|
  }

  lemma TotalEntriesAppend(pages: seq<Page>, page: Page)
    ensures TotalEntries(pages + [page]) == TotalEntries(pages) + |page.entries|
  {
    assert (pages + [page])[..|pages|] == pages;
  }

  /**
   * A page that cannot be fetched, by a non-throttling error or after five
   * throttled attempts, ends the cycle with exactly one more error and every
   * earlier count kept.
   */
  lemma FetchFailureEndsCycle(p: Policy, s: CycleState, scripts: seq<FetchScript>)
    requires scripts != [] && !FetchPage(s.work.limiter, scripts[0]).outcome.Retrieved?
    ensures var r := RunFrom(p, s, scripts);
      && r.ending == FetchFailed
      && r.state.work.stats == s.work.stats.(errors := s.work.stats.errors + 1)
      && r.state.fetched == s.fetched
      && r.state.work.calls <= s.work.calls + PageMaxRetries
      && r.state.work.limiter == FetchPage(s.work.limiter, scripts[0]).limiter
      && r.state.work.waits == s.work.waits + FetchPage(s.work.limiter, scripts[0]).waits
  {
  }

  /**
   * The listings of a fetched page are processed with the limiter the fetch
   * left, whose error streak is zero, after the fetch's own calls and backoff
   * waits; the rest of the cycle goes on with the limiter the page leaves.
   */
  lemma FetchedPageStartsFromFetch(p: Policy, s: CycleState, script: FetchScript)
    requires FetchPage(s.work.limiter, script).outcome.Retrieved?
    ensures var run := FetchPage(s.work.limiter, script);
      var w := s.work.(limiter := run.limiter, calls := s.work.calls + run.calls, waits := s.work.waits + run.waits);
      var done := ProcessItems(p, w, run.outcome.value.entries);
      && w.limiter.consecutiveErrors == 0
      && match PageStep(p, s, script)
         case Continue(s') => s'.work == done
         case Stop(r) => r.ending == LastPage && r.state.work == done
  {
  }

  /**
   * The limiter is shared across listings: a promotion whose every attempt is
   * throttled is a skip that leaves the streak raised by the whole budget, after
   * one backoff wait per attempt but the last. From a fresh limiter the next
   * throttled call of the cycle then waits `5·2^4` seconds plus jitter.
   */
  lemma ExhaustedPromotionCarriesStreak(s: Stats, l: Limiter, calls: nat, waits: seq<nat>, n: string, world: ItemWorld, j: Jitter)
    requires world.lookup.Offers?
    requires exists k :: 0 <= k < |world.lookup.offers| && world.lookup.offers[k].tier == Premium
    requires forall j :: 0 <= j < PromoMaxRetries ==> ThrottledAt(PromotionCall, world.promotion, j)
    ensures var r := PromoteEligible(s, l, calls, waits, n, world);
      && r.stats == s.(skipped := s.skipped + 1)
      && r.limiter.consecutiveErrors == l.consecutiveErrors + PromoMaxRetries
      && |r.waits| == |waits| + PromoMaxRetries - 1
      && (l == Fresh ==> ThrottledWait(r.limiter.consecutiveErrors + 1, j) == BaseWait * 16 + j)
  {
    ThrottledThroughout(PromotionCall, l, world.promotion, PromoMaxRetries);
    EligibleEffect(s, l, calls, waits, n, world);
    assert Pow2(4) == 16;
  }
  /**
   * The next listing's promotion runs on the limiter the one before it left. When
   * a listing from a fresh limiter exhausts its promotion budget and the next
   * eligible listing's first promotion attempt is throttled, that listing's first
   * backoff is `5·2^4` seconds plus jitter, not the `5·2` of a fresh limiter.
   */
  lemma ExhaustedStreakReachesNextListing(p: Policy, w: Work, n1: string, e1: Entry, n2: string, e2: Entry)
    requires w.limiter == Fresh
    requires Decide(p, w.stats.promotedByName, n1, e1.listing.approvalDate, e1.world.clock).Eligible?
    requires e1.world.lookup.Offers?
    requires exists k :: 0 <= k < |e1.world.lookup.offers| && e1.world.lookup.offers[k].tier == Premium
    requires forall j :: 0 <= j < PromoMaxRetries ==> ThrottledAt(PromotionCall, e1.world.promotion, j)
    requires Decide(p, w.stats.promotedByName, n2, e2.listing.approvalDate, e2.world.clock).Eligible?
    requires e2.world.lookup.Offers?
    requires exists k :: 0 <= k < |e2.world.lookup.offers| && e2.world.lookup.offers[k].tier == Premium
    requires ThrottledAt(PromotionCall, e2.world.promotion, 0)
    ensures var w2 := ProcessNamed(p, ProcessNamed(p, w, n1, e1), n2, e2);
      && |w2.waits| > |w.waits| + PromoMaxRetries - 1
      && w2.waits[|w.waits| + PromoMaxRetries - 1] == BaseWait * 16 + e2.world.promotion[0].jitter
  {
    var s := w.stats.(checked := w.stats.checked + 1);
    var w1 := ProcessNamed(p, w, n1, e1);
    assert w1 == PromoteEligible(s, w.limiter, w.calls, w.waits, n1, e1.world);
    ExhaustedPromotionCarriesStreak(s, w.limiter, w.calls, w.waits, n1, e1.world, e2.world.promotion[0].jitter);
    assert w1.stats.promotedByName == w.stats.promotedByName;
    var w2 := ProcessNamed(p, w1, n2, e2);
    ItemEffect(p, w1, n2, e2);
    var run := Retry(PromotionCall, w1.limiter, e2.world.promotion, PromoMaxRetries);
    ThrottledFirstWaits(PromotionCall, w1.limiter, e2.world.promotion, PromoMaxRetries);
    assert w2.waits == w1.waits + run.waits;
    assert w2.waits[|w1.waits|] == run.waits[0];
  }

  /**
   * From state `s` to state `r` of the same cycle: the fetched pages only grow,
   * the checked counter grows by exactly the listings of the new pages, outcomes
   * settle at most once per new listing plus one error when `failed`, no count is
   * lost, the waits slept so far stay a prefix, the duplicate limit is kept, and
   * when `failed` the error counter has grown.
   */
  ghost predicate Advanced(p: Policy, s: CycleState, r: CycleState, failed: bool) {
    && |s.fetched| <= |r.fetched| && r.fetched[..|s.fetched|] == s.fetched
    && r.work.stats.checked == s.work.stats.checked + TotalEntries(r.fetched) - TotalEntries(s.fetched)
    && Outcomes(r.work.stats) - Outcomes(s.work.stats)
         <= r.work.stats.checked - s.work.stats.checked + (if failed then 1 else 0)
    && Grown(s.work.stats, r.work.stats)
    && Prefix(s.work.waits, r.work.waits)
    && (WithinLimit(p, s.work.stats.promotedByName) ==> WithinLimit(p, r.work.stats.promotedByName))
    && (failed ==> r.work.stats.errors > s.work.stats.errors)
  }

  /** One page advances the cycle; only a failed fetch adds an error not tied to a listing. */
  lemma PageStepAdvances(p: Policy, s: CycleState, script: FetchScript)
    ensures match PageStep(p, s, script)
      case Continue(s') => Advanced(p, s, s', false)
      case Stop(r) => Advanced(p, s, r.state, r.ending == FetchFailed)
  {
    var run := FetchPage(s.work.limiter, script);
    if run.outcome.Retrieved? {
      FetchedPageAdvances(p, s, run);
    } else {
      FailedFetchAdvances(p, s, run);
    }
  }

  lemma FetchedPageAdvances(p: Policy, s: CycleState, run: Run<Page>)
    requires run.outcome.Retrieved?
    ensures match AfterFetch(p, s, run)
      case Continue(s') => Advanced(p, s, s', false)
      case Stop(r) => Advanced(p, s, r.state, r.ending == FetchFailed)
  {
    var w := s.work.(limiter := run.limiter, calls := s.work.calls + run.calls, waits := s.work.waits + run.waits);
    var requested := s.requested + [s.cursor];
    var page := run.outcome.value;
    var s' := CycleState(ProcessItems(p, w, page.entries), s.cursor, requested, s.fetched + [page]);
    PrefixAppend(s.work.waits, run.waits);
    if page.hasNextPage {
      assert AfterFetch(p, s, run) == Continue(s'.(cursor := page.endCursor));
      PageAdvances(p, s, w, page, page.endCursor, requested);
    } else {
      assert AfterFetch(p, s, run) == Stop(Report(s', LastPage));
      PageAdvances(p, s, w, page, s.cursor, requested);
    }
  }

  /**
   * A failed fetch ends the cycle with exactly one more error, every other counter
   * as it was and no page added to those already fetched.
   */
  lemma FailedFetchAdvances(p: Policy, s: CycleState, run: Run<Page>)
    requires !run.outcome.Retrieved?
    ensures AfterFetch(p, s, run).Stop? && AfterFetch(p, s, run).report.ending == FetchFailed
    ensures Advanced(p, s, AfterFetch(p, s, run).report.state, true)
    ensures AfterFetch(p, s, run).report.state.work.stats == s.work.stats.(errors := s.work.stats.errors + 1)
    ensures AfterFetch(p, s, run).report.state.fetched == s.fetched
  {
    PrefixAppend(s.work.waits, run.waits);
  }

  /** Processing a fetched page advances the cycle, whatever becomes of the cursors. */
  lemma PageAdvances(p: Policy, s: CycleState, w: Work, page: Page, cursor: Option<string>, requested: seq<Option<string>>)
    requires w.stats == s.work.stats && Prefix(s.work.waits, w.waits)
    ensures Advanced(p, s, CycleState(ProcessItems(p, w, page.entries), cursor, requested, s.fetched + [page]), false)
  {
    ItemsEffect(p, w, page.entries);
    PrefixTrans(s.work.waits, w.waits, ProcessItems(p, w, page.entries).waits);
    TotalEntriesAppend(s.fetched, page);
    assert (s.fetched + [page])[..|s.fetched|] == s.fetched;
  }

  lemma AdvancedTrans(p: Policy, a: CycleState, b: CycleState, c: CycleState, failed: bool)
    requires Advanced(p, a, b, false) && Advanced(p, b, c, failed)
    ensures Advanced(p, a, c, failed)
  {
    assert c.fetched[..|a.fetched|] == (c.fetched[..|b.fetched|])[..|a.fetched|];
    PrefixTrans(a.work.waits, b.work.waits, c.work.waits);
  }

  /**
   * The rest of a cycle advances it; when it ends at a failed fetch it may settle
   * one outcome more than it has new listings, and its error counter has grown.
   */
  lemma {:induction false} RunEffect(p: Policy, s: CycleState, scripts: seq<FetchScript>)
    ensures var r := RunFrom(p, s, scripts); Advanced(p, s, r.state, r.ending == FetchFailed)
    decreases |scripts|
  {
    if scripts != [] {
      PageStepAdvances(p, s, scripts[0]);
      match PageStep(p, s, scripts[0])
      case Stop(r) =>
      case Continue(s') =>
        RunEffect(p, s', scripts[1..]);
        var r := RunFrom(p, s', scripts[1..]);
        AdvancedTrans(p, s, s', r.state, r.ending == FetchFailed);
    }
  }

  /**
   * The cursor bookkeeping of a cycle state: one requested cursor per fetched
   * page, the first one `None` and each later one the `end_cursor` of the page
   * before; every fetched page announced a next page, and the next cursor is the
   * last page's `end_cursor`.
   */
  ghost predicate Paginated(s: CycleState) {
    && |s.requested| == |s.fetched|
    && (|s.requested| > 0 ==> s.requested[0] == None)
    && (forall k :: 0 < k < |s.requested| ==> s.requested[k] == s.fetched[k - 1].endCursor)
    && (forall k :: 0 <= k < |s.fetched| ==> s.fetched[k].hasNextPage)
    && s.cursor == (if s.fetched == [] then None else s.fetched[|s.fetched| - 1].endCursor)
  }

  /** The cursor bookkeeping of a finished cycle. */
  ghost predicate PaginatedReport(r: Report) {
    && |r.state.requested| == |r.state.fetched| + (if r.ending == FetchFailed then 1 else 0)
    && (|r.state.requested| > 0 ==> r.state.requested[0] == None)
    && (forall k :: 0 < k < |r.state.requested| ==> r.state.requested[k] == r.state.fetched[k - 1].endCursor)
    && (forall k :: 0 <= k < |r.state.fetched| - 1 ==> r.state.fetched[k].hasNextPage)
    && (r.ending == LastPage <==> |r.state.fetched| > 0 && !r.state.fetched[|r.state.fetched| - 1].hasNextPage)
  }

  lemma PageStepPaginates(p: Policy, s: CycleState, script: FetchScript)
    requires Paginated(s)
    ensures match PageStep(p, s, script)
      case Continue(s') => Paginated(s')
      case Stop(r) => PaginatedReport(r)
  {
    var run := FetchPage(s.work.limiter, script);
    var w := s.work.(limiter := run.limiter, calls := s.work.calls + run.calls, waits := s.work.waits + run.waits);
    if run.outcome.Retrieved? {
      var page := run.outcome.value;
      PagePaginates(s, ProcessItems(p, w, page.entries), page);
    } else {
      FailurePaginates(s, w.(stats := w.stats.(errors := w.stats.errors + 1)));
    }
  }

  /** The bookkeeping after a page is fetched, whatever the work done on its listings. */
  lemma PagePaginates(s: CycleState, w: Work, page: Page)
    requires Paginated(s)
    ensures var s' := CycleState(w, s.cursor, s.requested + [s.cursor], s.fetched + [page]);
      && (page.hasNextPage ==> Paginated(s'.(cursor := page.endCursor)))
      && (!page.hasNextPage ==> PaginatedReport(Report(s', LastPage)))
  {
  }

  /** The bookkeeping after a failed fetch. */
  lemma FailurePaginates(s: CycleState, w: Work)
    requires Paginated(s)
    ensures PaginatedReport(Report(CycleState(w, s.cursor, s.requested + [s.cursor], s.fetched), FetchFailed))
  {
  }

  /**
   * Pagination follows the continuation cursor: the first fetch asks for no
   * cursor, each later fetch for the `end_cursor` of the page before, a failed
   * fetch adds a requested cursor but no page, and only the final page of a
   * cycle that ended at the last page lacks a next page.
   */
  lemma {:induction false} RunPaginates(p: Policy, s: CycleState, scripts: seq<FetchScript>)
    requires Paginated(s)
    ensures PaginatedReport(RunFrom(p, s, scripts))
    decreases |scripts|
  {
    if scripts != [] {
      PageStepPaginates(p, s, scripts[0]);
      match PageStep(p, s, scripts[0])
      case Stop(r) =>
      case Continue(s') => RunPaginates(p, s', scripts[1..]);
    }
  }

  /**
   * A whole cycle: `total_checked` is the number of listings on the pages that
   * were fetched; promoted, skipped and errored outcomes number at most one per
   * checked listing, plus the one error of a failed fetch; `promoted_by_name`
   * stays within the duplicate limit; and pagination follows the cursors.
   */
  lemma CycleSummary(p: Policy, scripts: seq<FetchScript>)
    ensures var r := RunCycle(p, scripts);
      && r.state.work.stats.checked == TotalEntries(r.state.fetched)
      && Outcomes(r.state.work.stats) <= r.state.work.stats.checked + (if r.ending == FetchFailed then 1 else 0)
      && WithinLimit(p, r.state.work.stats.promotedByName)
      && PaginatedReport(r)
  {
    RunEffect(p, Start, scripts);
    RunPaginates(p, Start, scripts);
  }
}

=== FILE: eligibility.dfy ===
/**
 * The per-listing decision of the cycle, taken in the source's order: name
 * filter, approval-date parse, age threshold, per-name duplicate limit.
 */
module Eligibility {
  import opened Wrappers
  import opened Text
  import opened Names

  /**
   * The settings the cycle consults: normalised include and exclude name sets,
   * the promotion threshold in seconds, and the per-name duplicate limit (a
   * negative limit means unlimited).
   */
  datatype Policy = Policy(includeNames: set<string>, excludeNames: set<string>, threshold: int, duplicatesLimit: int)

  /**
   * The policy's name sets are the ones `Config.include_names` and
   * `Config.exclude_names` build from the configured lists.
   */
  predicate FromConfig(p: Policy, included: seq<string>, excluded: seq<string>) {
    p.includeNames == NameSet(included) && p.excludeNames == NameSet(excluded)
  }

  /** Some non-blank configured name normalises to `n`. */
  predicate Listed(names: seq<string>, n: string) {
    exists k :: 0 <= k < |names| && Strip(names[k]) != "" && Normalize(Some(names[k])) == n
  }

  /** The configured list has a name that is not blank. */
  predicate HasNonBlank(names: seq<string>) {
    exists k :: 0 <= k < |names| && Strip(names[k]) != ""
  }

  /**
   * For a policy built from the configured lists, the name filter in terms of the
   * lists themselves: when some included name is not blank, a listing passes
   * exactly when a configured included name normalises to its name; otherwise it
   * passes exactly when no configured excluded name does. A listing without a name
   * passes exactly when no included name is set.
   */
  lemma ConfiguredNameFilter(p: Policy, included: seq<string>, excluded: seq<string>, name: Option<string>)
    requires FromConfig(p, included, excluded)
    ensures NameAdmitted(p, Normalize(name)) <==>
      if HasNonBlank(included) then Listed(included, Normalize(name)) else !Listed(excluded, Normalize(name))
    ensures name.None? ==> (NameAdmitted(p, Normalize(name)) <==> !HasNonBlank(included))
  {
    NameSetMembers(included);
    NameSetMembers(excluded);
    NormalizeShape(name);
    if HasNonBlank(included) {
      var k :| 0 <= k < |included| && Strip(included[k]) != "";
      assert Normalize(Some(included[k])) in p.includeNames;
    }
  }

  /** `promoted_by_name[n]` of a `defaultdict(int)`: zero for a name never promoted. */
  function Count(byName: map<string, nat>, n: string): nat {
    if n in byName then byName[n] else 0
  }

  /** What happens to one listing before any remote call. */
  datatype Decision =
    | SkipNotIncluded   // the include set is non-empty and lacks the name
    | SkipExcluded      // the include set is empty and the exclude set has the name
    | SkipBadDate       // the approval date does not parse
    | NotYetDue         // too young to promote; not counted as a skip
    | SkipDuplicate     // this name already reached the duplicate limit in this cycle
    | Eligible          // go on to the priority lookup and the promotion

  /** The decisions that add one to the skip counter. */
  predicate CountedSkip(d: Decision) {
    d.SkipNotIncluded? || d.SkipExcluded? || d.SkipBadDate? || d.SkipDuplicate?
  }

  /** The name filter alone: a non-empty include set wins, otherwise the exclude set applies. */
  predicate NameAdmitted(p: Policy, n: string) {
    if p.includeNames != {} then n in p.includeNames else n !in p.excludeNames
  }

  /** The name has room under the duplicate limit. */
  predicate UnderLimit(p: Policy, byName: map<string, nat>, n: string) {
    p.duplicatesLimit < 0 || Count(byName, n) < p.duplicatesLimit
  }

  /**
   * The decision for a listing with normalised name `n` and parsed approval date
   * `approved`, at clock reading `now`, given the promotions of this cycle so far.
   */
  function Decide(p: Policy, byName: map<string, nat>, n: string, approved: Option<int>, now: int): Decision {
    if p.includeNames != {} && n !in p.includeNames then SkipNotIncluded
    else if p.includeNames == {} && p.excludeNames != {} && n in p.excludeNames then SkipExcluded
    else match approved
      case None => SkipBadDate
      case Some(date) =>
        if now - date <= p.threshold then NotYetDue
        else if p.duplicatesLimit >= 0 && Count(byName, n) >= p.duplicatesLimit then SkipDuplicate
        else Eligible
  }

  /**
   * Each decision holds exactly when every earlier check passed and its own
   * check fails, so the checks apply in the source's order: name filter, date,
   * age, duplicate limit.
   */
  lemma DecideInOrder(p: Policy, byName: map<string, nat>, n: string, approved: Option<int>, now: int)
    ensures var d := Decide(p, byName, n, approved, now);
      && (d.SkipNotIncluded? || d.SkipExcluded? <==> !NameAdmitted(p, n))
      && (d.SkipNotIncluded? ==> p.includeNames != {})
      && (d.SkipExcluded? ==> p.includeNames == {})
      && (d.SkipBadDate? <==> NameAdmitted(p, n) && approved.None?)
      && (d.NotYetDue? <==>
            NameAdmitted(p, n) && approved.Some? && now - approved.value <= p.threshold)
      && (d.SkipDuplicate? <==>
            && NameAdmitted(p, n) && approved.Some? && now - approved.value > p.threshold
            && !UnderLimit(p, byName, n))
      && (d.Eligible? <==>
            && NameAdmitted(p, n) && approved.Some? && now - approved.value > p.threshold
            && UnderLimit(p, byName, n))
  {
  }

  /**
   * With a non-empty include set the exclude set plays no part: the listing is
   * filtered out exactly when its normalised name is not included.
   */
  lemma IncludeOverridesExclude(p: Policy, q: Policy, byName: map<string, nat>, n: string, approved: Option<int>, now: int)
    requires p.includeNames != {} && q == p.(excludeNames := q.excludeNames)
    ensures Decide(p, byName, n, approved, now) == Decide(q, byName, n, approved, now)
    ensures Decide(p, byName, n, approved, now).SkipNotIncluded? <==> n !in p.includeNames
  {
  }
}

=== FILE: executors.dfy ===
/**
 * The two retrying remote operations of the engine: promoting one listing
 * (`promote_product_with_retry`, which reports `(success, message)`) and fetching
 * one page of listings.
 */
module Executors {
  import opened Wrappers
  import opened Text
  import opened RateLimiter
  import opened Remote
  import opened Retrying

  /** The phrase by which the cycle recognises an exhausted retry budget. */
  const SkipMarker := "Пропуск товара"

  const SuccessPrefix := "Продвинут со статусом: "
  const FailurePrefix := "Ошибка при продвижении: "
  const UnknownFailure := "Неизвестная ошибка"
  const ExhaustedPrefix := "Превышен лимит попыток после "
  const ExhaustedMiddle := " попыток. "

  /** The message returned once every attempt was throttled; it names the budget. */
  function ExhaustedMessage(maxRetries: int): string {
    ExhaustedPrefix + IntToDecimal(maxRetries) + ExhaustedMiddle + SkipMarker + "."
  }

  lemma ExhaustedMessageMarked(maxRetries: int)
    ensures Contains(ExhaustedMessage(maxRetries), SkipMarker)
  {
    var s := ExhaustedMessage(maxRetries);
    var i := |ExhaustedPrefix + IntToDecimal(maxRetries) + ExhaustedMiddle|;
    assert s[i..i + |SkipMarker|] == SkipMarker;
    ContainsAt(s, SkipMarker, i);
  }

  /** A non-throttling failure is marked exactly when the remote error text itself carries the marker. */
  lemma FailureMessageMarked(e: string)
    ensures Contains(FailurePrefix + e, SkipMarker) <==> Contains(e, SkipMarker)
  {
    if Contains(e, SkipMarker) {
      ContainsAfterPrefix(FailurePrefix, e, SkipMarker);
    }
    if Contains(FailurePrefix + e, SkipMarker) {
      ContainsOnlyAfterPrefix(FailurePrefix, e, SkipMarker);
    }
  }

  lemma UnknownFailureUnmarked()
    ensures !Contains(UnknownFailure, SkipMarker)
  {
    NotContainsWithoutFirstChar(UnknownFailure, SkipMarker);
  }

  /** The result of `promote_product_with_retry`, with the calls made, the limiter afterwards and the waits slept. */
  datatype Promotion = Promotion(success: bool, message: string, calls: nat, limiter: Limiter, waits: seq<nat>)

  /** `promote_product_with_retry(..., premium_priority, ..., rate_limiter, max_retries)`. */
  function Promote(l: Limiter, offer: PriorityOffer, attempts: seq<Attempt<()>>, maxRetries: int): Promotion
    requires maxRetries <= |attempts|
  {
    var run := Retry(PromotionCall, l, attempts, maxRetries);
    match run.outcome
    case Retrieved(_) => Promotion(true, SuccessPrefix + offer.name, run.calls, run.limiter, run.waits)
    case Exhausted => Promotion(false, ExhaustedMessage(maxRetries), run.calls, run.limiter, run.waits)
    case Rejected(e) => Promotion(false, FailurePrefix + e, run.calls, run.limiter, run.waits)
    case NotAttempted => Promotion(false, UnknownFailure, run.calls, run.limiter, run.waits)
  }

  /**
   * A promotion succeeds exactly when some call within the budget succeeds,
   * leaving the error streak at zero, and it never makes more than `maxRetries`
   * calls. Its failure message carries the skip marker exactly when all
   * `maxRetries` attempts were throttled, or when a non-throttling error's own
   * text carries it. Without a budget it fails with the unknown-error message.
   */
  lemma PromoteContract(l: Limiter, offer: PriorityOffer, attempts: seq<Attempt<()>>, maxRetries: int)
    requires maxRetries <= |attempts|
    ensures var p := Promote(l, offer, attempts, maxRetries);
      && p.calls <= Max(maxRetries, 0)
      && (p.success <==> p.calls > 0 && attempts[p.calls - 1].reply.Ok?)
      && (p.success ==> p.limiter.consecutiveErrors == 0 && p.message == SuccessPrefix + offer.name)
      && (maxRetries <= 0 ==> p == Promotion(false, UnknownFailure, 0, l, []))
      && (!p.success && Contains(p.message, SkipMarker) <==>
            || (maxRetries > 0 && p.calls == maxRetries && ThrottledAt(PromotionCall, attempts, maxRetries - 1))
            || (p.calls > 0 && attempts[p.calls - 1].reply.Err?
                && !IsThrottling(PromotionCall, attempts[p.calls - 1].reply.message)
                && Contains(attempts[p.calls - 1].reply.message, SkipMarker)))
  {
    var run := Retry(PromotionCall, l, attempts, maxRetries);
    match run.outcome
    case Retrieved(_) =>
    case Exhausted => ExhaustedMessageMarked(maxRetries);
    case Rejected(e) => FailureMessageMarked(e);
    case NotAttempted => UnknownFailureUnmarked();
  }

  /**
   * A first promotion call that fails without throttling is the end of it: one
   * call, the limiter as it was, no wait, and the error text after the failure prefix.
   */
  lemma PromoteRejection(l: Limiter, offer: PriorityOffer, attempts: seq<Attempt<()>>, maxRetries: int)
    requires 0 < maxRetries <= |attempts|
    requires attempts[0].reply.Err? && !IsThrottling(PromotionCall, attempts[0].reply.message)
    ensures Promote(l, offer, attempts, maxRetries)
         == Promotion(false, FailurePrefix + attempts[0].reply.message, 1, l, [])
  {
    RejectionIsImmediate(PromotionCall, l, attempts, maxRetries);
  }

  /**
   * The page fetch with its budget of five attempts. A fetched page leaves the
   * error streak at zero; at most five calls are made.
   */
  function FetchPage(l: Limiter, attempts: FetchScript): (r: Run<Page>)
    ensures 1 <= r.calls <= PageMaxRetries
    ensures r.outcome.Retrieved? ==> r.limiter.consecutiveErrors == 0 && attempts[r.calls - 1].reply == Ok(r.outcome.value)
    ensures r.outcome.Exhausted? <==> r.calls == PageMaxRetries && ThrottledAt(PageFetch, attempts, PageMaxRetries - 1)
    ensures !r.outcome.NotAttempted?
  {
    Retry(PageFetch, l, attempts, PageMaxRetries)
  }
}

=== FILE: names.dfy ===
/**
 * Listing-name normalisation (`_normalize_name`) and the normalised name sets
 * built from the configuration's include and exclude lists.
 */
module Names {
  import opened Wrappers
  import opened Text

  /** `(name or "").strip().lower()`. */
  function Normalize(name: Option<string>): string {
    Lower(Strip(name.GetOr("")))
  }

  /**
   * A missing name normalises to the empty string; a normalised name has no
   * surrounding whitespace and is already lower-case.
   */
  lemma NormalizeShape(name: Option<string>)
    ensures name == None ==> Normalize(name) == ""
    ensures var r := Normalize(name);
      && (|r| > 0 ==> !IsSpace(r[0]) && !IsSpace(r[|r| - 1]))
      && (forall k :: 0 <= k < |r| ==> LowerChar(r[k]) == r[k])
  {
    var s := Strip(name.GetOr(""));
    StripShape(name.GetOr(""));
    LowerShape(s);
    forall k | 0 <= k < |s| {
      LowerCharIdempotent(s[k]);
    }
  }

  /** Normalising an already normalised name changes nothing. */
  lemma NormalizeIdempotent(name: Option<string>)
    ensures Normalize(Some(Normalize(name))) == Normalize(name)
  {
    var s := Strip(name.GetOr(""));
    StripLowerCommute(s);
    StripIdempotent(name.GetOr(""));
    LowerIdempotent(s);
  }

  /** Names that agree once lower-cased normalise to the same string. */
  lemma NormalizeIgnoresCase(a: string, b: string)
    requires Lower(a) == Lower(b)
    ensures Normalize(Some(a)) == Normalize(Some(b))
  {
    StripLowerCommute(a);
    StripLowerCommute(b);
  }

  /** Whitespace around a name does not change its normalised form. */
  lemma NormalizeIgnoresPadding(ws1: string, name: string, ws2: string)
    requires AllSpace(ws1) && AllSpace(ws2)
    ensures Normalize(Some(ws1 + name + ws2)) == Normalize(Some(name))
  {
    StripIgnoresPadding(ws1, name, ws2);
  }

  /**
   * The include/exclude name set of the configuration: the normalised form of
   * every listed string that is not blank.
   */
  function NameSet(names: seq<string>): set<string> {
    set n | n in names && Strip(n) != "" :: Normalize(Some(n))
  }

  /**
   * Every member of a name set is a non-empty normalised name, every
   * non-blank configured name is represented by its normalised form, and
   * every member is the normalised form of some non-blank configured name.
   */
  lemma NameSetMembers(names: seq<string>)
    ensures "" !in NameSet(names)
    ensures forall x :: x in NameSet(names) ==> Normalize(Some(x)) == x
    ensures forall k :: 0 <= k < |names| && Strip(names[k]) != "" ==> Normalize(Some(names[k])) in NameSet(names)
    ensures forall x :: x in NameSet(names) ==>
      exists k :: 0 <= k < |names| && Strip(names[k]) != "" && Normalize(Some(names[k])) == x
  {
    forall x | x in NameSet(names)
      ensures x != "" && Normalize(Some(x)) == x
      ensures exists k :: 0 <= k < |names| && Strip(names[k]) != "" && Normalize(Some(names[k])) == x
    {
      var n :| n in names && Strip(n) != "" && Normalize(Some(n)) == x;
      NormalizeIdempotent(Some(n));
      var k :| 0 <= k < |names| && names[k] == n;
    }
  }
}

=== FILE: rate_limiter.dfy ===
/**
 * The rate limiter: a count of consecutive throttling errors and the backoff it
 * implies, plus the waits the engine derives from it. Waits are values here;
 * the caller is the one that sleeps.
 */
module RateLimiter {
  import opened Wrappers

  /** Seconds of the first backoff step, before doubling. */
  const BaseWait: nat := 5
  /** The exponent of the backoff stops growing after this many consecutive errors. */
  const MaxDoublings: nat := 5
  /** No throttled wait is longer than this many seconds. */
  const WaitCap: nat := 120
  /** `random.randint(0, 10)` includes both ends. */
  const MaxJitter: nat := 10

  /** A jitter draw of `random.randint(0, 10)`. */
  type Jitter = j: int | 0 <= j <= MaxJitter

  /** The limiter state: consecutive throttling errors and when the last one happened. */
  datatype Limiter = Limiter(consecutiveErrors: nat, lastErrorTime: Option<int>)

  /** A limiter as the cycle creates it. */
  const Fresh := Limiter(0, None)

  /** `on_error`: one more consecutive error, stamped with the current time. */
  function OnError(l: Limiter, now: int): (r: Limiter)
    ensures r.consecutiveErrors == l.consecutiveErrors + 1
    ensures r.lastErrorTime == Some(now)
  {
    Limiter(l.consecutiveErrors + 1, Some(now))
  }

  /** `on_success`: the error streak is over. */
  function OnSuccess(l: Limiter): (r: Limiter)
    ensures r.consecutiveErrors == 0 && r.lastErrorTime == None
  {
    Fresh
  }

  function Pow2(n: nat): (r: nat)
    ensures r >= 1
  {
    if n == 0 then 1 else 2 * Pow2(n - 1)
  }

  lemma {:induction false} Pow2Monotone(a: nat, b: nat)
    requires a <= b
    ensures Pow2(a) <= Pow2(b)
    decreases b
  {
    if a < b {
      Pow2Monotone(a, b - 1);
    }
  }

  /**
   * `calculate_wait_time(429)`: `min(5 * 2^min(errors, 5) + jitter, 120)` seconds.
   * Below five errors the cap is never reached, so the wait is the doubled base
   * plus jitter; from five errors on it is always the cap.
   */
  function ThrottledWait(errors: nat, jitter: Jitter): (w: nat)
    ensures BaseWait <= w <= WaitCap
    ensures errors < MaxDoublings ==> w == BaseWait * Pow2(errors) + jitter
    ensures errors >= MaxDoublings ==> w == WaitCap
  {
    Pow2Monotone(Min(errors, MaxDoublings - 1), MaxDoublings - 1);
    assert Pow2(MaxDoublings - 1) == 16 && Pow2(MaxDoublings) == 32;
    Min(BaseWait * Pow2(Min(errors, MaxDoublings)) + jitter, WaitCap)
  }

  /** For a fixed jitter the throttled wait never shrinks as the error streak grows. */
  lemma {:induction false} ThrottledWaitMonotone(e1: nat, e2: nat, jitter: Jitter)
    requires e1 <= e2
    ensures ThrottledWait(e1, jitter) <= ThrottledWait(e2, jitter)
  {
    if e2 < MaxDoublings {
      Pow2Monotone(e1, e2);
    }
  }

  /**
   * `random_delay_between_pages_sec`: no delay when both bounds are zero,
   * otherwise the `random.uniform(pmin, pmax)` draw, which lies between the bounds.
   */
  function PageDelay(pmin: int, pmax: int, draw: int): (d: int)
    requires Min(pmin, pmax) <= draw <= Max(pmin, pmax)
    ensures pmin == 0 && pmax == 0 ==> d == 0
    ensures !(pmin == 0 && pmax == 0) ==> d == draw
    ensures Min(pmin, pmax) <= d <= Max(pmin, pmax)
  {
    if pmin == 0 && pmax == 0 then 0 else draw
  }

  /**
   * Only the exact pair `0, 0` disables the delay: with any other bounds the
   * delay is zero only when the draw itself is zero, and bounds that are both
   * positive always give a positive delay, equal bounds included.
   */
  lemma OnlyZeroPairDisablesDelay(pmin: int, pmax: int, draw: int)
    requires Min(pmin, pmax) <= draw <= Max(pmin, pmax)
    ensures PageDelay(pmin, pmax, draw) == 0 <==> (pmin == 0 && pmax == 0) || draw == 0
    ensures pmin > 0 && pmax > 0 ==> PageDelay(pmin, pmax, draw) > 0
    ensures pmin > 0 && pmin == pmax ==> PageDelay(pmin, pmax, draw) == pmin
  {
  }

  /**
   * The countdown shown during a backoff: `range(w, 0, -5)`, the seconds still
   * remaining before each sleep of `min(5, remaining)`.
   */
  function Countdown(w: int): (steps: seq<int>)
    ensures |steps| == if w <= 0 then 0 else (w + 4) / 5
    ensures forall k :: 0 <= k < |steps| ==> steps[k] == w - 5 * k && steps[k] > 0
    decreases w
  {
    if w <= 0 then [] else [w] + Countdown(w - 5)
  }

  /** The seconds slept over a countdown. */
  function Slept(steps: seq<int>): int {
    if steps == [] then 0 else Min(5, steps[0]) + Slept(steps[1..])
  }

  /** Sleeping through the countdown of `w` seconds sleeps exactly `w` seconds. */
  lemma {:induction false} CountdownSleepsWait(w: nat)
    ensures Slept(Countdown(w)) == w
    decreases w
  {
    if w > 5 {
      CountdownSleepsWait(w - 5);
    } else if w > 0 {
      assert Countdown(w) == [w];
    }
  }
}

=== FILE: remote.dfy ===
/**
 * What the marketplace and the process environment answer, as data. Every remote
 * call of the engine is one `Attempt`: the reply, the clock reading `on_error`
 * would stamp, and the jitter `random.randint(0, 10)` would draw if the reply is
 * a throttling error. A page pairs each listing with the answers given while that
 * listing is processed.
 */
module Remote {
  import opened Wrappers
  import opened RateLimiter

  /** `max_retries=3` of the promotion call made by the cycle. */
  const PromoMaxRetries: nat := 3
  /** `page_max_retries = 5`: attempts to fetch one page. */
  const PageMaxRetries: nat := 5

  /** A remote call either returns a value or raises an error with a message (`str(e)`). */
  datatype Reply<+T> = Ok(value: T) | Err(message: string)

  /** One remote call as the engine experiences it. */
  datatype Attempt<+T> = Attempt(reply: Reply<T>, clock: int, jitter: Jitter)

  /** Priority tiers; the engine only ever promotes to `Premium`. */
  datatype Tier = Premium | OtherTier

  /** An offer returned by `get_item_priority_statuses`. */
  datatype PriorityOffer = PriorityOffer(id: string, name: string, tier: Tier)

  /** The answer to `get_item_priority_statuses`: an exception or the list of offers. */
  datatype Lookup = LookupFailed(message: string) | Offers(offers: seq<PriorityOffer>)

  /**
   * A listing of a fetched page. `approvalDate` is the parsed `approval_date` in
   * seconds (UTC), `None` when `datetime.fromisoformat` rejects it.
   */
  datatype Listing = Listing(id: string, name: Option<string>, approvalDate: Option<int>)

  /** The replies to successive promotion calls for one listing; at least one per allowed attempt. */
  type PromoScript = s: seq<Attempt<()>> | |s| >= PromoMaxRetries
    witness [Attempt(Ok(()), 0, 0), Attempt(Ok(()), 0, 0), Attempt(Ok(()), 0, 0)]

  /** What the environment answers while one listing is processed. */
  datatype ItemWorld = ItemWorld(clock: int, lookup: Lookup, promotion: PromoScript)

  datatype Entry = Entry(listing: Listing, world: ItemWorld)

  /** A page of `get_items`: its listings, `has_next_page` and `end_cursor`. */
  datatype Page = Page(entries: seq<Entry>, hasNextPage: bool, endCursor: Option<string>)

  /** The replies to successive fetch attempts of one page; at least one per allowed attempt. */
  type FetchScript = s: seq<Attempt<Page>> | |s| >= PageMaxRetries
    witness [Attempt(Err(""), 0, 0), Attempt(Err(""), 0, 0), Attempt(Err(""), 0, 0), Attempt(Err(""), 0, 0), Attempt(Err(""), 0, 0)]

  /** Which remote call is being retried; the two classify throttling differently. */
  datatype Channel = PromotionCall | PageFetch
}

=== FILE: retry.dfy ===
/**
 * The bounded retry loop shared by `promote_product_with_retry` and the page
 * fetch of `check_and_update_products`: up to `maxAttempts` remote calls; a
 * success resets the limiter and returns; a throttling error bumps the limiter,
 * computes the backoff and, unless it was the last attempt, waits and tries
 * again; any other error returns at once.
 */
module Retrying {
  import opened Wrappers
  import opened Text
  import opened RateLimiter
  import opened Remote

  /**
   * Whether an error message signals throttling. Both call sites look for "429"
   * and "TOO_MANY_REQUESTS"; the page fetch also accepts "Too many attempts".
   */
  predicate IsThrottling(ch: Channel, message: string) {
    || Contains(message, "429")
    || Contains(message, "TOO_MANY_REQUESTS")
    || (ch == PageFetch && Contains(message, "Too many attempts"))
  }

  /**
   * The page fetch recognises throttling wherever a promotion call does, and
   * also by "Too many attempts", which alone does not mark a promotion error.
   */
  lemma ThrottlingByChannel(message: string)
    ensures IsThrottling(PageFetch, message) <==>
              IsThrottling(PromotionCall, message) || Contains(message, "Too many attempts")
    ensures IsThrottling(PageFetch, "Too many attempts") && !IsThrottling(PromotionCall, "Too many attempts")
    ensures IsThrottling(PromotionCall, "HTTP 429") && IsThrottling(PromotionCall, "TOO_MANY_REQUESTS")
  {
    var t := "Too many attempts";
    ContainsAt(t, t, 0);
    NotContainsWithoutFirstChar(t, "429");
    assert !OccursAt(t, "TOO_MANY_REQUESTS", 0) by {
      assert t[1] != "TOO_MANY_REQUESTS"[1];
    }
    assert !Contains(t, "TOO_MANY_REQUESTS");
    ContainsAt("HTTP 429", "429", 5);
    ContainsAt("TOO_MANY_REQUESTS", "TOO_MANY_REQUESTS", 0);
  }

  /** Attempt `j` raised a throttling error. */
  predicate ThrottledAt<T>(ch: Channel, attempts: seq<Attempt<T>>, j: int)
    requires 0 <= j < |attempts|
  {
    attempts[j].reply.Err? && IsThrottling(ch, attempts[j].reply.message)
  }

  /** How a retry loop ended. */
  datatype Outcome<+T> =
    | Retrieved(value: T)      // a call succeeded
    | Exhausted                // every allowed attempt was throttled
    | Rejected(message: string) // a call failed without throttling
    | NotAttempted             // the budget allowed no call at all

  /** The outcome, the number of remote calls made, the limiter afterwards and the backoff waits performed. */
  datatype Run<+T> = Run(outcome: Outcome<T>, calls: nat, limiter: Limiter, waits: seq<nat>)

  /** The limiter after the throttled attempts `i .. j-1`, starting from `l`. */
  function Streak<T>(l: Limiter, attempts: seq<Attempt<T>>, i: nat, j: nat): Limiter
    requires i <= j <= |attempts|
  {
    if j == i then l else Limiter(l.consecutiveErrors + (j - i), Some(attempts[j - 1].clock))
  }

  /**
   * The run `r`, started at attempt `i` with limiter `l`, is what the retry policy
   * prescribes: every call before the last was throttled and waited on with the
   * backoff of the error count it raised; the last call decides the outcome.
   */
  ghost predicate Settled<T>(ch: Channel, l: Limiter, attempts: seq<Attempt<T>>, maxAttempts: int, i: nat, r: Run<T>)
    requires maxAttempts <= |attempts|
  {
    && i < r.calls <= maxAttempts
    && (forall j :: i <= j < r.calls - 1 ==> ThrottledAt(ch, attempts, j))
    && |r.waits| == r.calls - 1 - i
    && (forall k :: 0 <= k < |r.waits| ==>
          r.waits[k] == ThrottledWait(l.consecutiveErrors + k + 1, attempts[i + k].jitter))
    && match r.outcome
       case Retrieved(v) => attempts[r.calls - 1].reply == Ok(v) && r.limiter == Fresh
       case Rejected(m) =>
         && attempts[r.calls - 1].reply == Err(m) && !IsThrottling(ch, m)
         && r.limiter == Streak(l, attempts, i, r.calls - 1)
       case Exhausted =>
         && r.calls == maxAttempts && ThrottledAt(ch, attempts, maxAttempts - 1)
         && r.limiter == Streak(l, attempts, i, maxAttempts)
       case NotAttempted => false
  }

  /** Attempts `i`, `i + 1`, ... of the loop, with the limiter as it stands before attempt `i`. */
  function RetryFrom<T>(ch: Channel, l: Limiter, attempts: seq<Attempt<T>>, maxAttempts: int, i: nat): (r: Run<T>)
    requires i < maxAttempts <= |attempts|
    ensures Settled(ch, l, attempts, maxAttempts, i, r)
    decreases maxAttempts - i
  {
    match attempts[i].reply
    case Ok(v) => Run(Retrieved(v), i + 1, OnSuccess(l), [])
    case Err(m) =>
      if !IsThrottling(ch, m) then
        Run(Rejected(m), i + 1, l, [])
      else
        var l' := OnError(l, attempts[i].clock);
        var w := ThrottledWait(l'.consecutiveErrors, attempts[i].jitter);
        if i < maxAttempts - 1 then
          var rest := RetryFrom(ch, l', attempts, maxAttempts, i + 1);
          SettledAfterThrottle(ch, l, attempts, maxAttempts, i, rest);
          rest.(waits := [w] + rest.waits)
        else
          Run(Exhausted, i + 1, l', [])
  }

  /** A throttled, waited-on attempt `i` in front of a run settled from `i + 1` gives a run settled from `i`. */
  lemma SettledAfterThrottle<T>(ch: Channel, l: Limiter, attempts: seq<Attempt<T>>, maxAttempts: int, i: nat, rest: Run<T>)
    requires i + 1 < maxAttempts <= |attempts|
    requires ThrottledAt(ch, attempts, i)
    requires Settled(ch, OnError(l, attempts[i].clock), attempts, maxAttempts, i + 1, rest)
    ensures Settled(ch, l, attempts, maxAttempts, i,
                    rest.(waits := [ThrottledWait(l.consecutiveErrors + 1, attempts[i].jitter)] + rest.waits))
  {
    var l' := OnError(l, attempts[i].clock);
    var r := rest.(waits := [ThrottledWait(l.consecutiveErrors + 1, attempts[i].jitter)] + rest.waits);
    forall k | 0 <= k < |r.waits|
      ensures r.waits[k] == ThrottledWait(l.consecutiveErrors + k + 1, attempts[i + k].jitter)
    {
      if k > 0 {
        assert r.waits[k] == rest.waits[k - 1];
      }
    }
    match rest.outcome {
      case Retrieved(v) =>
      case Rejected(m) =>
        assert Streak(l', attempts, i + 1, rest.calls - 1) == Streak(l, attempts, i, rest.calls - 1);
      case Exhausted =>
        assert Streak(l', attempts, i + 1, maxAttempts) == Streak(l, attempts, i, maxAttempts);
    }
  }

  /**
   * The whole loop `for attempt in range(maxAttempts)`. With no budget nothing is
   * called and the limiter is untouched; otherwise the run is settled from the
   * first attempt, so it makes between 1 and `maxAttempts` calls.
   */
  function Retry<T>(ch: Channel, l: Limiter, attempts: seq<Attempt<T>>, maxAttempts: int): (r: Run<T>)
    requires maxAttempts <= |attempts|
    ensures maxAttempts <= 0 ==> r == Run(NotAttempted, 0, l, [])
    ensures maxAttempts > 0 ==> Settled(ch, l, attempts, maxAttempts, 0, r)
    ensures r.calls <= Max(maxAttempts, 0)
  {
    if maxAttempts <= 0 then Run(NotAttempted, 0, l, []) else RetryFrom(ch, l, attempts, maxAttempts, 0)
  }

  /** A first call that fails without throttling ends the loop: one call, limiter unchanged, no wait. */
  lemma RejectionIsImmediate<T>(ch: Channel, l: Limiter, attempts: seq<Attempt<T>>, maxAttempts: int)
    requires 0 < maxAttempts <= |attempts|
    requires attempts[0].reply.Err? && !IsThrottling(ch, attempts[0].reply.message)
    ensures Retry(ch, l, attempts, maxAttempts) == Run(Rejected(attempts[0].reply.message), 1, l, [])
  {
    var r := Retry(ch, l, attempts, maxAttempts);
    assert r.calls == 1;
  }

  /**
   * When every allowed attempt is throttled the loop gives up after exactly
   * `maxAttempts` calls, having waited after all but the last one.
   */
  lemma ThrottledThroughout<T>(ch: Channel, l: Limiter, attempts: seq<Attempt<T>>, maxAttempts: int)
    requires 0 < maxAttempts <= |attempts|
    requires forall j :: 0 <= j < maxAttempts ==> ThrottledAt(ch, attempts, j)
    ensures var r := Retry(ch, l, attempts, maxAttempts);
      && r.outcome == Exhausted && r.calls == maxAttempts
      && |r.waits| == maxAttempts - 1
      && r.limiter.consecutiveErrors == l.consecutiveErrors + maxAttempts
  {
    var r := Retry(ch, l, attempts, maxAttempts);
    assert ThrottledAt(ch, attempts, r.calls - 1);
  }

  /**
   * A throttled first attempt, with a budget of more than one, is always waited
   * on: the first backoff of the loop is the wait for one more error than the
   * limiter held when the loop began.
   */
  lemma ThrottledFirstWaits<T>(ch: Channel, l: Limiter, attempts: seq<Attempt<T>>, maxAttempts: int)
    requires 1 < maxAttempts <= |attempts|
    requires ThrottledAt(ch, attempts, 0)
    ensures var r := Retry(ch, l, attempts, maxAttempts);
      |r.waits| >= 1 && r.waits[0] == ThrottledWait(l.consecutiveErrors + 1, attempts[0].jitter)
  {
  }

  /** After a successful call, however many throttled calls came before it, the error streak is zero. */
  lemma SuccessClearsStreak<T>(ch: Channel, l: Limiter, attempts: seq<Attempt<T>>, maxAttempts: int)
    requires maxAttempts <= |attempts|
    requires Retry(ch, l, attempts, maxAttempts).outcome.Retrieved?
    ensures Retry(ch, l, attempts, maxAttempts).limiter.consecutiveErrors == 0
  {
  }
}

=== FILE: text.dfy ===
/**
 * The string operations the promotion engine relies on: Python's substring test
 * `p in s`, `str.strip()`, `str.lower()` and decimal formatting of an integer in
 * an f-string.
 */
module Text {

  /** Python's `p in s` on strings: `p` occurs in `s` as a contiguous block. */
  predicate Contains(s: string, p: string) {
    exists i | 0 <= i <= |s| - |p| :: OccursAt(s, p, i)
  }

  /** `p` occurs in `s` starting at index `i`. */
  predicate OccursAt(s: string, p: string, i: int) {
    0 <= i <= |s| - |p| && s[i..i + |p|] == p
  }

  lemma ContainsAt(s: string, p: string, i: int)
    requires OccursAt(s, p, i)
    ensures Contains(s, p)
  {
  }

  /** An occurrence of `p` in `e` is still one after text is put in front of `e`. */
  lemma ContainsAfterPrefix(q: string, e: string, p: string)
    requires Contains(e, p)
    ensures Contains(q + e, p)
  {
    var i :| 0 <= i <= |e| - |p| && OccursAt(e, p, i);
    assert (q + e)[|q| + i..|q| + i + |p|] == e[i..i + |p|];
    ContainsAt(q + e, p, |q| + i);
  }

  /**
   * If the first character of `p` does not appear in `q`, every occurrence of `p`
   * in `q + e` lies inside `e`.
   */
  lemma ContainsOnlyAfterPrefix(q: string, e: string, p: string)
    requires |p| > 0
    requires forall k :: 0 <= k < |q| ==> q[k] != p[0]
    requires Contains(q + e, p)
    ensures Contains(e, p)
  {
    var s := q + e;
    var i :| 0 <= i <= |s| - |p| && OccursAt(s, p, i);
    assert s[i] == s[i..i + |p|][0] == p[0];
    assert i >= |q|;
    assert e[i - |q|..i - |q| + |p|] == s[i..i + |p|];
    ContainsAt(e, p, i - |q|);
  }

  /** No occurrence of `p` can start in a string that lacks `p`'s first character. */
  lemma NotContainsWithoutFirstChar(s: string, p: string)
    requires |p| > 0
    requires forall k :: 0 <= k < |s| ==> s[k] != p[0]
    ensures !Contains(s, p)
  {
    forall i | 0 <= i <= |s| - |p|
      ensures !OccursAt(s, p, i)
    {
      assert s[i..i + |p|][0] == s[i];
    }
  }

  /** Python's `str.isspace()` for one character (Unicode categories Zs, and bidi classes WS, B, S). */
  predicate IsSpace(c: char) {
    || c == ' ' || ('\t' <= c <= '\r') || ('\U{001C}' <= c <= '\U{001F}')
    || c == '\U{0085}' || c == '\U{00A0}' || c == '\U{1680}'
    || ('\U{2000}' <= c <= '\U{200A}') || c == '\U{2028}' || c == '\U{2029}'
    || c == '\U{202F}' || c == '\U{205F}' || c == '\U{3000}'
  }

  /** The characters for which Python's `str.isspace()` holds, listed one by one. */
  const Whitespace: seq<char> := [
    ' ', '\t', '\n', '\U{000B}', '\U{000C}', '\r',
    '\U{001C}', '\U{001D}', '\U{001E}', '\U{001F}', '\U{0085}', '\U{00A0}', '\U{1680}',
    '\U{2000}', '\U{2001}', '\U{2002}', '\U{2003}', '\U{2004}', '\U{2005}',
    '\U{2006}', '\U{2007}', '\U{2008}', '\U{2009}', '\U{200A}',
    '\U{2028}', '\U{2029}', '\U{202F}', '\U{205F}', '\U{3000}'
  ]

  /**
   * `IsSpace` holds for exactly the 29 listed characters, so in particular not
   * for the zero-width space U+200B nor for any letter or digit.
   */
  lemma IsSpaceTable(c: char)
    ensures IsSpace(c) <==> c in Whitespace
    ensures |Whitespace| == 29
    ensures !IsSpace('\U{200B}') && !IsSpace('a') && !IsSpace('0')
  {
  }

  predicate AllSpace(s: string) {
    forall k :: 0 <= k < |s| ==> IsSpace(s[k])
  }

  /**
   * Python's `str.lower()` on one character, for the upper-case letters of ASCII,
   * Latin-1 and the basic Cyrillic block; every other character is left as it is.
   */
  function LowerChar(c: char): (r: char)
    ensures IsSpace(r) <==> IsSpace(c)
  {
    if 'A' <= c <= 'Z' || ('\U{00C0}' <= c <= '\U{00DE}' && c != '\U{00D7}') || ('\U{0410}' <= c <= '\U{042F}') then
      (c as int + 32) as char
    else if '\U{0400}' <= c <= '\U{040F}' then
      (c as int + 80) as char
    else
      c
  }

  /** Lower-casing a character twice is lower-casing it once. */
  lemma LowerCharIdempotent(c: char)
    ensures LowerChar(LowerChar(c)) == LowerChar(c)
  {
  }

  /** Python's `str.lower()`, character by character. */
  function Lower(s: string): string {
    if s == [] then [] else [LowerChar(s[0])] + Lower(s[1..])
  }

  /** `Lower` keeps the length and maps every character through `LowerChar`. */
  lemma {:induction false} LowerShape(s: string)
    ensures |Lower(s)| == |s|
    ensures forall k :: 0 <= k < |s| ==> Lower(s)[k] == LowerChar(s[k])
    decreases |s|
  {
    if s != [] {
      LowerShape(s[1..]);
      assert forall k :: 1 <= k < |s| ==> Lower(s)[k] == Lower(s[1..])[k - 1];
    }
  }

  /** Python's `str.lstrip()`: drops the leading whitespace. */
  function TrimStart(s: string): string {
    if |s| > 0 && IsSpace(s[0]) then TrimStart(s[1..]) else s
  }

  /** `TrimStart` keeps a suffix of `s`, drops only whitespace, and stops at a non-space. */
  lemma {:induction false} TrimStartShape(s: string)
    ensures var r := TrimStart(s);
      && |r| <= |s| && r == s[|s| - |r|..]
      && AllSpace(s[..|s| - |r|])
      && (|r| > 0 ==> !IsSpace(r[0]))
    decreases |s|
  {
    if |s| > 0 && IsSpace(s[0]) {
      TrimStartShape(s[1..]);
      var r := TrimStart(s);
      assert s[..|s| - |r|] == [s[0]] + s[1..][..|s| - 1 - |r|];
    }
  }

  /** Python's `str.rstrip()`: drops the trailing whitespace. */
  function TrimEnd(s: string): string {
    if |s| > 0 && IsSpace(s[|s| - 1]) then TrimEnd(s[..|s| - 1]) else s
  }

  /** `TrimEnd` keeps a prefix of `s`, drops only whitespace, and stops at a non-space. */
  lemma {:induction false} TrimEndShape(s: string)
    ensures var r := TrimEnd(s);
      && |r| <= |s| && r == s[..|r|]
      && AllSpace(s[|r|..])
      && (|r| > 0 ==> !IsSpace(r[|r| - 1]))
    decreases |s|
  {
    if |s| > 0 && IsSpace(s[|s| - 1]) {
      TrimEndShape(s[..|s| - 1]);
      var r := TrimEnd(s);
      assert s[|r|..] == s[..|s| - 1][|r|..] + [s[|s| - 1]];
    }
  }

  /** Python's `str.strip()`. */
  function Strip(s: string): string {
    TrimEnd(TrimStart(s))
  }

  /**
   * `Strip` returns the block of `s` left once whitespace is removed from both
   * ends: everything removed is whitespace and the block neither starts nor ends
   * with whitespace.
   */
  lemma StripShape(s: string)
    ensures var r := Strip(s);
      && (exists i | 0 <= i <= |s| - |r| :: StrippedAt(s, r, i))
      && (|r| > 0 ==> !IsSpace(r[0]) && !IsSpace(r[|r| - 1]))
  {
    var t := TrimStart(s);
    var r := TrimEnd(t);
    TrimStartShape(s);
    TrimEndShape(t);
    var i := |s| - |t|;
    assert r == s[i..i + |r|];
    assert s[i + |r|..] == t[|r|..];
    assert r == Strip(s);
    assert StrippedAt(s, Strip(s), i);
    if |r| > 0 {
      assert r[0] == t[0];
    }
  }

  /** `r` is the block of `s` at index `i`, and only whitespace lies around it. */
  predicate StrippedAt(s: string, r: string, i: int) {
    0 <= i <= |s| - |r| && r == s[i..i + |r|] && AllSpace(s[..i]) && AllSpace(s[i + |r|..])
  }

  /** A string without whitespace at either end is left alone by `Strip`. */
  lemma {:induction false} StripIdempotent(s: string)
    ensures Strip(Strip(s)) == Strip(s)
  {
    var r := Strip(s);
    StripShape(s);
    assert TrimStart(r) == r;
    assert TrimEnd(r) == r;
  }

  lemma {:induction false} TrimStartAfterSpace(ws: string, x: string)
    requires AllSpace(ws)
    ensures TrimStart(ws + x) == TrimStart(x)
    decreases |ws|
  {
    if |ws| > 0 {
      assert (ws + x)[1..] == ws[1..] + x;
      TrimStartAfterSpace(ws[1..], x);
    } else {
      assert ws + x == x;
    }
  }

  lemma {:induction false} TrimEndBeforeSpace(x: string, ws: string)
    requires AllSpace(ws)
    ensures TrimEnd(x + ws) == TrimEnd(x)
    decreases |ws|
  {
    if |ws| > 0 {
      assert (x + ws)[..|x + ws| - 1] == x + ws[..|ws| - 1];
      TrimEndBeforeSpace(x, ws[..|ws| - 1]);
    } else {
      assert x + ws == x;
    }
  }

  lemma {:induction false} TrimStartKeepsTail(x: string, y: string)
    requires !AllSpace(x)
    ensures TrimStart(x + y) == TrimStart(x) + y
    decreases |x|
  {
    if IsSpace(x[0]) {
      assert (x + y)[1..] == x[1..] + y;
      assert !AllSpace(x[1..]) by {
        var k :| 0 <= k < |x| && !IsSpace(x[k]);
        assert x[1..][k - 1] == x[k];
      }
      TrimStartKeepsTail(x[1..], y);
    }
  }

  /** Whitespace put around a string does not change what `Strip` returns. */
  lemma {:induction false} StripIgnoresPadding(ws1: string, s: string, ws2: string)
    requires AllSpace(ws1) && AllSpace(ws2)
    ensures Strip(ws1 + s + ws2) == Strip(s)
  {
    assert ws1 + s + ws2 == ws1 + (s + ws2);
    TrimStartAfterSpace(ws1, s + ws2);
    if AllSpace(s) {
      BlankStrips(s);
      BlankStrips(s + ws2);
    } else {
      TrimStartKeepsTail(s, ws2);
      TrimEndBeforeSpace(TrimStart(s), ws2);
    }
  }

  lemma BlankStrips(s: string)
    requires AllSpace(s)
    ensures TrimStart(s) == ""
  {
    TrimStartAfterSpace(s, "");
    assert s + "" == s;
  }

  lemma {:induction false} TrimStartLower(s: string)
    ensures TrimStart(Lower(s)) == Lower(TrimStart(s))
    decreases |s|
  {
    if |s| > 0 {
      assert Lower(s)[1..] == Lower(s[1..]);
      TrimStartLower(s[1..]);
    }
  }

  lemma {:induction false} TrimEndLower(s: string)
    ensures TrimEnd(Lower(s)) == Lower(TrimEnd(s))
    decreases |s|
  {
    LowerShape(s);
    if |s| > 0 {
      LowerShape(s[..|s| - 1]);
      assert Lower(s)[..|s| - 1] == Lower(s[..|s| - 1]);
      TrimEndLower(s[..|s| - 1]);
    }
  }

  /** Lower-casing and stripping commute, since lower-casing never creates or removes whitespace. */
  lemma StripLowerCommute(s: string)
    ensures Strip(Lower(s)) == Lower(Strip(s))
  {
    TrimStartLower(s);
    TrimEndLower(TrimStart(s));
  }

  lemma {:induction false} LowerIdempotent(s: string)
    ensures Lower(Lower(s)) == Lower(s)
    decreases |s|
  {
    if s != [] {
      LowerCharIdempotent(s[0]);
      LowerIdempotent(s[1..]);
    }
  }

  function DigitChar(d: nat): (c: char)
    requires d < 10
    ensures '0' <= c <= '9'
  {
    ['0', '1', '2', '3', '4', '5', '6', '7', '8', '9'][d]
  }

  /** The decimal digits of `n`, as `str(n)` writes them. */
  function NatToDecimal(n: nat): (r: string)
    ensures |r| >= 1
    ensures forall k :: 0 <= k < |r| ==> '0' <= r[k] <= '9'
  {
    if n < 10 then [DigitChar(n)] else NatToDecimal(n / 10) + [DigitChar(n % 10)]
  }

  /** An integer as an f-string writes it: a minus sign for negatives, then the digits. */
  function IntToDecimal(i: int): (r: string)
    ensures |r| >= 1
    ensures i >= 0 ==> forall k :: 0 <= k < |r| ==> '0' <= r[k] <= '9'
    ensures i < 0 ==> r[0] == '-'
  {
    if i < 0 then "-" + NatToDecimal(-i) else NatToDecimal(i)
  }
}

=== FILE: wrappers.dfy ===
/** The optional-value datatype used for Python's `None`-able values. */
module Wrappers {

  /** `None` stands for Python's `None`; `Some(v)` for a present value `v`. */
  datatype Option<+T> = None | Some(value: T) {

    /** The wrapped value, or `default` when there is none (Python's `x or default` for strings). */
    function GetOr(default: T): T {
      match this
      case Some(v) => v
      case None => default
    }
  }

  function Min(a: int, b: int): int {
    if a <= b then a else b
  }

  function Max(a: int, b: int): int {
    if a <= b then b else a
  }
}
